=== FILE: README.md ===
# ecdypy core in Dafny

This project models three small parts of ecdypy, a toolkit that generates Rust source text from Python:

- **The `u8` primitive type** (`ecdypy/rtypes.py`). `is_ok` and `value_from` classify the decimal text of a value with three anchored regular expressions: in range, negative and too large. `value_from` returns an in-range value unchanged. Otherwise it clamps the value to 0 or 255, or returns `None` when no pattern matches. The `i8` ok-pattern is modelled as a predicate.
- **The code-text tree** (`ecdypy/codewriter.py`). `CodeText` is an ordered line buffer. `CodeWriter` is an ordered container of children, and rendering joins them with a separator.
- **Attribute text** (`ecdypy/macros.py`). `Macro` renders `#[...]` and `Derive` renders `#[derive(a,b,...)]`.

Files:

| file | module | contents |
|---|---|---|
| `wrappers.dfy` | `Wrappers` | `Option`, standing for Python's `None` |
| `lines.dfy` | `Lines` | `str.join` and `str.split` on one character, with the split-of-join round trip |
| `decimal.dfy` | `Decimal` | `str(int)` and its inverse, a parser for digit strings |
| `rtypes.dfy` | `RTypes` | the regular expressions as predicates, `is_ok`, `value_from` and their proofs |
| `codewriter.dfy` | `CodeWriter` | `CodeText`, `CodeWriter`, rendering, the banner comment |
| `macros.dfy` | `Macros` | `Macro` and `Derive`, plus parsers that invert them |

Modelling choices:

- **Regular expressions.** Each pattern is a predicate on the whole string, written one alternative per disjunct. `RTypes.Search` adds one extra case. Without the MULTILINE flag, Python's `$` also matches just before a final newline, so `"5\n"` is in range.
- **Object references.** `CodeText` and `CodeWriter` objects are shared by reference. So the model does not treat them as values: it threads an explicit object store (`CodeWriter.Heap`) through pure functions. `texts[r]` is the line buffer of text object `r`. `trees[t]` is a child deque. A `Writer` names the deque it holds. Allocation appends to the store. This keeps the aliasing visible:
  - a `CodeText` added to a writer is the same object the caller keeps editing;
  - `CodeWriter(other)` shares `other`'s deque;
  - `text + x` returns a detached copy.
- **Dispatch on Python type.** `type(x) is ...` dispatch becomes a closed datatype of argument kinds: `TextArg`, `Addable` and `Init`.
- **`CodeWriter.add`.** It returns the store together with a `raised` flag. When a list holds an unsupported item, Python raises `TypeError` after the earlier items have been added, and the model keeps those additions.
- **`is_ok`.** Python's `is_ok` returns a match object or `None`. The model keeps only its truth value.
- **Package metadata.** `__version__` and `__source__` come from the package's `_meta` module, which is not part of this model. They are passed in as a `Meta` value.

## Model

| member | source | states |
|---|---|---|
| `RTypes.ValueFrom` | ecdypy/rtypes.py:28-39 | The argument comes back unchanged exactly when it is ok. Text matching the lower pattern gives the minimum 0, and text matching the upper pattern gives the maximum 255. Any changed result is one of those two bounds. The result is `None` exactly when none of the three patterns matches the argument's text. |
| `RTypes.IsOk` | ecdypy/rtypes.py:41-42 | `is_ok` is the truth value of the ok-pattern search on the argument's text. For an integer it holds iff `0 <= v <= 255`. |
| `RTypes.ValueFromIsClamp` | ecdypy/rtypes.py:27-53 | For every integer `v`, `value_from(v)` is `clamp(v, 0, 255)`, so the failure branch is unreachable, and `is_ok(v)` holds iff `0 <= v <= 255`. |
| `RTypes.U8Classification` | ecdypy/rtypes.py:49-51 | On `str(v)`, the ok, lower and upper patterns match exactly when `0 <= v <= 255`, `v < 0` and `v > 255`. |
| `RTypes.U8OkExactly` | ecdypy/rtypes.py:41-49 | The `u8` ok-pattern matches `str(v)` iff `0 <= v <= 255`. |
| `RTypes.U8LowerExactly` | ecdypy/rtypes.py:50 | The lower pattern `-[0-9]+` matches `str(v)` iff `v < 0`. |
| `RTypes.U8UpperExactly` | ecdypy/rtypes.py:51 | The four alternatives of the upper pattern together match `str(v)` iff `v > 255`. |
| `RTypes.U8PatternsDisjoint` | ecdypy/rtypes.py:30-36 | On every string, decimal or not, at most one of the three `u8` patterns matches, so the order of the branches does not matter. |
| `RTypes.ValueFromOnText` | ecdypy/rtypes.py:28-39 | On non-canonical text: `"abc"`, `"007"` and `""` give `None` without raising. `"0000"` and `"300\n"` clamp to 255. `"-0"` clamps to 0. `"5\n"` is in range and is returned as given. |
| `RTypes.I8OkExactly` | ecdypy/rtypes.py:57 | The `i8` ok-pattern matches `str(v)` iff `-127 <= v <= 127`. |
| `RTypes.I8OkLoose` | ecdypy/rtypes.py:57 | Because of `[0-9]{0,2}`, the `i8` ok-pattern also matches `""`, `"-"` and `"-07"`. |
| `CodeWriter.NewText` | ecdypy/codewriter.py:86-102 | `CodeText(None)` has no lines. `CodeText(s)` has the one line `s`. `CodeText(t)` copies `t`'s lines. The new object is fresh, and no existing text or deque changes. |
| `CodeWriter.AddText` | ecdypy/codewriter.py:104-140 | The effect of `add_text`, by argument kind. A str appends that line. `None` appends `""`. A `CodeText` appends its lines in order. A deque appends its items. Any other kind, a list included, changes nothing. No other text or deque changes. |
| `CodeWriter.RenderText` | ecdypy/codewriter.py:146-149 | `str(text)`: an empty buffer renders as `""`, and a non-empty one begins with its first line. With a one-character separator that no line holds, splitting the rendering on it gives back the lines. |
| `CodeWriter.TextLen` | ecdypy/codewriter.py:161-163 | `len(text)` is the number of lines the default rendering shows, for newline-free lines. A zero length renders as `""`. |
| `CodeWriter.RenderAfterAddLine` | ecdypy/codewriter.py:146-149 | Adding line `s` to a non-empty buffer extends its rendering by the separator and `s`. On an empty buffer the rendering becomes `s`. |
| `CodeWriter.RenderedLinesRecoverable` | ecdypy/codewriter.py:146-149 | With the default `"\n"` separator, splitting a rendering on newlines gives back the buffer's lines, provided the buffer has at least one line and no line holds a newline. |
| `CodeWriter.Concat` | ecdypy/codewriter.py:151-159 | `text + x` and `text += x` first extend the receiver by `add_text(x)`. They then return a fresh `CodeText` whose lines equal the receiver's. |
| `CodeWriter.ConcatCopyIsDetached` | ecdypy/codewriter.py:151-159 | The object returned by `+` is a copy: later edits to the receiver do not reach it. |
| `CodeWriter.FiveLineBuild` | tests/test_codewriter.py:44-53 | The test's five-step build gives a text of `len` 5 with the expected lines. The original object, rebound away before the last `+`, keeps 4 lines. |
| `CodeWriter.NewWriter` | ecdypy/codewriter.py:181-210 | `CodeWriter(other)` shares `other`'s deque. A list gives a fresh deque of its items in order. Any other single object gives a one-child deque. `None` gives an empty deque. |
| `CodeWriter.SharedWritersAgree` | ecdypy/codewriter.py:203-204 | This follows from `NewWriter` sharing the deque. Adding through the new writer or through the source writer gives the same store. Afterwards both writers have the same length, and the same rendering when their formatters agree. |
| `CodeWriter.Add` | ecdypy/codewriter.py:212-249 | The effect of `add`, by kind. A str appends one fresh `CodeText` holding that line. A writer appends its children in order. A `CodeText` appends that very object. Any other kind raises `TypeError` and changes nothing. `TypeError` is raised iff some item at any depth is unsupported. No existing text changes, and no other deque changes. |
| `CodeWriter.AddAllAppend` | ecdypy/codewriter.py:230-233 | A list is added item by item, in order. For any split of a list into `xs + ys`, adding it is adding `xs`, then adding `ys` unless `xs` raised. |
| `CodeWriter.AddCount` | ecdypy/codewriter.py:228-249 | Unless a writer sharing the receiver's deque is spliced in, `len` grows by a count read off the argument alone. That count is 1 per str or `CodeText` and the other writer's `len` per writer. For a list it covers items up to and including the first that raises. |
| `CodeWriter.AddAllCount` | ecdypy/codewriter.py:230-233 | The same count for the items of a list, summed until the first item that raises. |
| `CodeWriter.RenderChild` | ecdypy/codewriter.py:304 | `str(child)`: a verbatim object shows its `str()`. A `CodeText` child renders with the default `"\n"` separator, so splitting on newlines gives back its lines. |
| `CodeWriter.RenderWriter` | ecdypy/codewriter.py:296-305 | `str(w)`: an empty writer renders as `""` and a one-child writer as that child. With a one-character separator absent from the children's renderings, splitting on it gives back those renderings in order. |
| `CodeWriter.WriterLen` | ecdypy/codewriter.py:311-312 | `len(w)` is the number of children. A zero length renders as `""`. Under a one-character separator absent from the children's renderings, it is the number of pieces the rendering splits into. |
| `CodeWriter.RenderAfterAddStr` | ecdypy/codewriter.py:296-305 | After `add(s)`, the writer renders as before plus its separator and `s`. On an empty writer it renders as `s`. |
| `CodeWriter.RenderAfterSplice` | ecdypy/codewriter.py:236-238 | Splicing a non-empty writer with the same separator into a non-empty one renders as the two renderings joined by that separator. |
| `CodeWriter.LaterTextEditsShow` | ecdypy/codewriter.py:239-243 | A `CodeText` is added by reference. After any `add_text` on it, every position the object occupies in a writer renders its new text, and every other child renders as before. |
| `CodeWriter.LaterLineShowsAtEnd` | ecdypy/codewriter.py:239-243 | A special case: when the text is the writer's last child and appears nowhere else in it, adding a line to it extends the writer's rendering by a newline and that line. |
| `CodeWriter.NestedTextUsesDefaultSeparator` | ecdypy/codewriter.py:296-305 | For any writer and any `CodeText`, `add(text)` extends the rendering by the writer's separator (none on an empty writer) and the text's lines joined by the default `"\n"`, whatever separator the writer uses. |
| `CodeWriter.ListStopsAtTypeError` | ecdypy/codewriter.py:228-249 | For any list `pre + [unsupported] + post` whose `pre` items do not raise, `add` raises `TypeError`. It leaves the store exactly as adding `pre` alone does: those items stay added and no item of `post` is added. |
| `CodeWriter.Plus` | ecdypy/codewriter.py:307-309 | `w + x` performs `add(x)` on `w` and returns `w` itself, not a copy. It raises iff `x` holds an unsupported item. Unless a writer sharing `w`'s deque is spliced in, `len(w)` grows by the count read off `x` alone. |
| `CodeWriter.ConcatenationTests` | tests/test_codewriter.py:62-79 | Both concatenation scenarios of the writer tests leave a writer of length 2. |
| `CodeWriter.BannerLines` | ecdypy/codewriter.py:282-292 | The banner has 4 lines, plus one for an author argument and one for a license. Its first line is `/*` and its last is `*/`. It carries the version, source, comma-joined authors and license lines in that order. |
| `CodeWriter.AddAutoGenComment` | ecdypy/codewriter.py:251-294 | `add_auto_gen_comment` adds exactly one child: a fresh `CodeText` holding the banner. Nothing else changes. |
| `CodeWriter.AuthorNames` | ecdypy/codewriter.py:288 | A single author string becomes a one-element list that joins to itself. A list is used as given. |
| `CodeWriter.LoneAuthorIsList` | ecdypy/codewriter.py:287-289 | A single author string gives the same banner as a one-element author list. |
| `Macros.Macro.GetText` | ecdypy/macros.py:21-35 | The text is `#[`, then the macro text, then `]`. |
| `Macros.Macro.ToString` | ecdypy/macros.py:37-38 | `str(macro)` equals `get_text()`, and parsing it gives back the macro text. |
| `Macros.Derive.GetText` | ecdypy/macros.py:58-73 | The text is the macro text `derive(` + args joined by bare commas + `)`. With no arguments it is `#[derive()]`. |
| `Macros.Derive.ToString` | ecdypy/macros.py:75-76 | `str(derive)` equals `get_text()`. When no argument is empty or holds a comma, parsing it gives back the arguments in order. |
| `Macros.MacroRoundTrip` | ecdypy/macros.py:35 | A string parses back to `t` exactly when it is the rendering of `Macro(t)`. |
| `Macros.DeriveRoundTrip` | ecdypy/macros.py:53-73 | The arguments come back from the rendering in order, when none is empty and none contains a comma. |
| `Macros.Bracketed` | ecdypy/macros.py:35-76 | Every `Macro` and `Derive` text begins with `#[` and ends with `]`. |

## Left out

- The module-level lines at ecdypy/rtypes.py:63-64, which instantiate `u8` and print a value. They are a side effect on import.
- `_I8_` as a working type. It derives from `_PrimitiveType_`, not `_INTEGER_`, so it has no `value_from` or `is_ok` and cannot be instantiated. Its `max_value = 128` contradicts its own ok-pattern. Its lower and upper patterns only cover magnitudes 128-199 and 1000 and up. Only its ok-pattern is modelled.
- RTypes.ValueFrom: integers with more decimal digits than the interpreter's limit are not modelled. Since CPython 3.10.7 and 3.11, that limit is 4300 by default. `str(v)` raises `ValueError` on such an integer, and the error handler's own f-string (ecdypy/rtypes.py:39) raises it again, so `value_from` and `is_ok` raise. The model renders every integer and clamps it.
- RTypes.ValueFrom: a non-integer argument is represented only by its `str()` text. When such an argument is in range, the model returns that text where Python returns the original object.
- All `print` diagnostics in the error paths. They are output only, so they are no-ops in the model.
- The first `CodeText.__add__` at ecdypy/codewriter.py:142-144. The second definition shadows it.
- CodeWriter.RenderWriter: a `Formatter` is a mutable dataclass that Python holds by reference. `default_formatter` is one module-level object, shared by `CodeText.__str__` and every writer built with the default (ecdypy/codewriter.py:13-27, 200). Assigning to its `_separator` later would change every rendering that uses it. The model treats a formatter as a value fixed when a writer is built, so a later change to the shared formatter is not modelled.
- The `Formatter` fields `_indent_spaces` and `_separator_function_chains`, and `CodeObject._priority`. No rendering reads them.
- The abstract `_DECLARABLE_` and `_DEFINABLE_` interfaces. This code has no implementations of them.
- The unused `CodeText("")` that `add` allocates before dispatching (ecdypy/codewriter.py:229). No one can observe it.
- CodeWriter.AddText: a deque given to `add_text` has its items appended as they are (ecdypy/codewriter.py:131-132), and `__str__` calls `str()` on each item only when it renders (ecdypy/codewriter.py:148). A `CodeText` or other mutable object held in the deque would therefore render live. `TextDeque` holds fixed strings, so this is not modelled.
- CodeWriter.BannerLines: `Authors` holds only strings. In Python any non-str author goes straight to `', '.join(author)` (ecdypy/codewriter.py:288-289). An int author, or a list holding a non-str item, raises `TypeError` there. Nothing catches it, and the writer is left unchanged. This error path is not modelled.
- CodeWriter.NewWriter: items given to the constructor are a str, a `CodeText` or some other object with a fixed `str()`. A writer or list placed inside the constructor's list would be rendered live by Python, and this is not modelled.
- The `_meta` module, which is not part of this model. The version and source strings are parameters.
- Names that this code lacks. `ecdypy/__init__.py` imports `RTypes`, `_TYPE_`, `Tuple`, `Struct` and `Variable`, and exports `Decorator`. The tests use `RTypes.i16`, `RTypes.u16`, `RTypes.i32`, `RTypes.char` and `RTypes.str` (tests/test_rconstructs.py:24-76), `Function` and `CodeWriter.empty` (tests/test_codewriter.py:86-106), and they rely on lazy re-rendering of inserted constructs (tests/test_codewriter.py:100). Also `ecdypy/rconstructs.py`, `ecdypy/types.py` and `ecdypy/decorators.py`, which are stubs or do not parse.

=== FILE: codewriter.dfy ===
/**
 `CodeText` (an ordered line buffer) and `CodeWriter` (an ordered container of
 children) as pure functions over an explicit object store.

 Python shares these objects by reference: a `CodeText` appended to a writer
 is the same object the caller keeps mutating, and `CodeWriter(other)` shares
 `other`'s child deque. To keep that sharing visible, every object lives in a
 `Heap`: `texts[r]` is the line buffer of the `CodeText` with reference `r`,
 `trees[t]` is a child deque, and a `Writer` names the deque it uses.
 Allocation appends to the store, so a fresh object's reference is the old
 length of its store.
 */
module CodeWriter {
  import opened Wrappers
  import opened Lines

  /** The formatter: only the separator affects any rendering. */
  datatype Formatter = Formatter(separator: string)

  const DefaultFormatter: Formatter := Formatter("\n")

  type TextRef = nat
  type TreeRef = nat

  /** A child of a writer's deque: a `CodeText` by reference, or an object the
      constructor stored as given (a plain string, say), shown by its `str()`. */
  datatype Child = TextChild(ref: TextRef) | Verbatim(repr: string)

  datatype Heap = Heap(texts: seq<seq<string>>, trees: seq<seq<Child>>)

  /** A `CodeWriter`: the deque it holds and its formatter, both fixed at construction. */
  datatype Writer = Writer(tree: TreeRef, formatter: Formatter)

  predicate ChildIn(h: Heap, c: Child) {
    c.TextChild? ==> c.ref < |h.texts|
  }

  /** Every child of every deque refers to an allocated `CodeText`. */
  predicate Valid(h: Heap) {
    forall t, i :: 0 <= t < |h.trees| && 0 <= i < |h.trees[t]| ==> ChildIn(h, h.trees[t][i])
  }

  predicate TextIn(h: Heap, r: TextRef) {
    r < |h.texts|
  }

  predicate WriterIn(h: Heap, w: Writer) {
    w.tree < |h.trees|
  }

  // ---------------------------------------------------------------------------
  // CodeText
  // ---------------------------------------------------------------------------

  /** What `add_text` and the `CodeText` constructor are given, by Python type. */
  datatype TextArg =
    | TextNone                     // None (the default argument)
    | TextStr(s: string)           // a str: one line
    | TextCodeText(ref: TextRef)   // another CodeText: its lines are copied
    | TextDeque(lines: seq<string>)// a deque of lines
    | TextOther(kind: string)      // any other type, a list included

  predicate TextArgIn(h: Heap, x: TextArg) {
    x.TextCodeText? ==> x.ref < |h.texts|
  }

  /** `add_text(x)` on the `CodeText` `r`. An unsupported kind is reported on
      standard output and leaves the buffer as it was. */
  function AddText(h: Heap, r: TextRef, x: TextArg): (h': Heap)
    requires Valid(h) && TextIn(h, r) && TextArgIn(h, x)
    ensures Valid(h')
    ensures h'.trees == h.trees
    ensures |h'.texts| == |h.texts|
    ensures forall q :: 0 <= q < |h.texts| && q != r ==> h'.texts[q] == h.texts[q]
    ensures h.texts[r] <= h'.texts[r]
    ensures x.TextNone? ==> h'.texts[r] == h.texts[r] + [""]
    ensures x.TextStr? ==> h'.texts[r] == h.texts[r] + [x.s]
    ensures x.TextCodeText? ==> h'.texts[r] == h.texts[r] + h.texts[x.ref]
    ensures x.TextDeque? ==> h'.texts[r] == h.texts[r] + x.lines
    ensures x.TextOther? ==> h' == h
  {
    match x
    case TextStr(s) => h.(texts := h.texts[r := h.texts[r] + [s]])
    case TextCodeText(q) => h.(texts := h.texts[r := h.texts[r] + h.texts[q]])
    case TextDeque(lines) => h.(texts := h.texts[r := h.texts[r] + lines])
    case TextNone => h.(texts := h.texts[r := h.texts[r] + [""]])
    case TextOther(_) => h
  }

  /** A fresh object and the store it was allocated in. */
  datatype TextAlloc = TextAlloc(heap: Heap, ref: TextRef)

  /** `CodeText(x)`: an empty buffer, then `add_text(x)` unless `x` is `None`. */
  function NewText(h: Heap, x: TextArg): (a: TextAlloc)
    requires Valid(h) && TextArgIn(h, x)
    ensures Valid(a.heap)
    ensures a.ref == |h.texts| && |a.heap.texts| == |h.texts| + 1
    ensures a.heap.texts[..|h.texts|] == h.texts
    ensures a.heap.trees == h.trees
    ensures x.TextNone? || x.TextOther? ==> a.heap.texts[a.ref] == []
    ensures x.TextStr? ==> a.heap.texts[a.ref] == [x.s]
    ensures x.TextCodeText? ==> a.heap.texts[a.ref] == h.texts[x.ref]
    ensures x.TextDeque? ==> a.heap.texts[a.ref] == x.lines
  {
    var h1 := h.(texts := h.texts + [[]]);
    var r := |h.texts|;
    if x.TextNone? then TextAlloc(h1, r) else TextAlloc(AddText(h1, r, x), r)
  }

  /** `len(text)`: the number of lines. */
  function TextLen(h: Heap, r: TextRef): (n: nat)
    requires TextIn(h, r)
    ensures n == 0 ==> RenderText(h, r, DefaultFormatter) == ""
    ensures n >= 1 && Free('\n', h.texts[r]) ==> n == |Split('\n', RenderText(h, r, DefaultFormatter))|
  {
    |h.texts[r]|
  }

  /** `text.__str__(formatter)`: the lines joined with the separator. With a
      one-character separator that no line holds, the lines can be read back. */
  function RenderText(h: Heap, r: TextRef, f: Formatter): (s: string)
    requires TextIn(h, r)
    ensures |h.texts[r]| == 0 ==> s == ""
    ensures |h.texts[r]| >= 1 ==> h.texts[r][0] <= s
    ensures |f.separator| == 1 && |h.texts[r]| >= 1 && Free(f.separator[0], h.texts[r]) ==>
      Split(f.separator[0], s) == h.texts[r]
  {
    JoinSplits(f.separator, h.texts[r]);
    Join(f.separator, h.texts[r])
  }

  /**
   `text + x` and `text += x` (the two methods have one body): the receiver is
   first extended by `add_text(x)`, then a fresh `CodeText` holding a copy of
   its lines is returned.
   */
  function Concat(h: Heap, r: TextRef, x: TextArg): (a: TextAlloc)
    requires Valid(h) && TextIn(h, r) && TextArgIn(h, x)
    ensures Valid(a.heap)
    ensures a.ref == |h.texts| && a.ref != r && |a.heap.texts| == |h.texts| + 1
    ensures a.heap.texts[a.ref] == a.heap.texts[r] == AddText(h, r, x).texts[r]
    ensures a.heap.trees == h.trees
    ensures forall q :: 0 <= q < |h.texts| && q != r ==> a.heap.texts[q] == h.texts[q]
  {
    NewText(AddText(h, r, x), TextCodeText(r))
  }

  /** Adding a line to a rendered buffer adds a separator and the line. */
  lemma RenderAfterAddLine(h: Heap, r: TextRef, s: string, f: Formatter)
    requires Valid(h) && TextIn(h, r)
    ensures RenderText(AddText(h, r, TextStr(s)), r, f)
         == if TextLen(h, r) == 0 then s else RenderText(h, r, f) + f.separator + s
  {
    if TextLen(h, r) > 0 {
      JoinSnoc(f.separator, h.texts[r], s);
    }
  }

  /** With the default formatter, splitting a rendering on newlines gives back
      the buffer's lines, when there is at least one and none holds a newline. */
  lemma RenderedLinesRecoverable(h: Heap, r: TextRef)
    requires TextIn(h, r) && TextLen(h, r) >= 1
    requires Free('\n', h.texts[r])
    ensures Split('\n', RenderText(h, r, DefaultFormatter)) == h.texts[r]
  {
    SplitJoin('\n', h.texts[r]);
  }

  /** The copy returned by `+` is not shared: a later change to the receiver
      leaves the copy as it was. */
  lemma ConcatCopyIsDetached(h: Heap, r: TextRef, x: TextArg, y: TextArg)
    requires Valid(h) && TextIn(h, r) && TextArgIn(h, x) && TextArgIn(h, y)
    ensures var a := Concat(h, r, x);
      TextArgIn(a.heap, y) &&
      AddText(a.heap, r, y).texts[a.ref] == a.heap.texts[a.ref]
  {
  }

  /**
   The build of a five-line text in the writer tests: `CodeText("Sample Text 1")`,
   `add_text()`, `add_text("Paragraph 1")`, `+= "Line 1"`, `= text + "Line 2"`.
   */
  lemma FiveLineBuild(h: Heap)
    requires Valid(h)
    ensures var a0 := NewText(h, TextStr("Sample Text 1"));
      var h1 := AddText(a0.heap, a0.ref, TextNone);
      var h2 := AddText(h1, a0.ref, TextStr("Paragraph 1"));
      var a3 := Concat(h2, a0.ref, TextStr("Line 1"));
      var a4 := Concat(a3.heap, a3.ref, TextStr("Line 2"));
      && TextLen(a4.heap, a4.ref) == 5
      && a4.heap.texts[a4.ref] == ["Sample Text 1", "", "Paragraph 1", "Line 1", "Line 2"]
      && TextLen(a4.heap, a0.ref) == 4
  {
  }

  // ---------------------------------------------------------------------------
  // CodeWriter
  // ---------------------------------------------------------------------------

  /** An object placed in a new writer's deque as it is (no wrapping). */
  datatype Item = ItemStr(s: string) | ItemCodeText(ref: TextRef) | ItemOther(repr: string)

  function ItemChild(i: Item): Child {
    match i
    case ItemStr(s) => Verbatim(s)
    case ItemCodeText(r) => TextChild(r)
    case ItemOther(repr) => Verbatim(repr)
  }

  predicate ItemIn(h: Heap, i: Item) {
    i.ItemCodeText? ==> i.ref < |h.texts|
  }

  /** The first argument of the `CodeWriter` constructor, by Python type. */
  datatype Init =
    | InitNone                   // None: an empty deque
    | InitWriter(source: Writer) // a CodeWriter: its deque is shared
    | InitList(items: seq<Item>) // a list: a new deque of its items
    | InitSingle(item: Item)     // anything else: a deque of that one object

  predicate InitIn(h: Heap, init: Init) {
    match init
    case InitNone => true
    case InitWriter(w) => WriterIn(h, w)
    case InitList(items) => forall i :: 0 <= i < |items| ==> ItemIn(h, items[i])
    case InitSingle(item) => ItemIn(h, item)
  }

  datatype WriterAlloc = WriterAlloc(heap: Heap, writer: Writer)

  /** `CodeWriter(init, formatter)`. */
  function NewWriter(h: Heap, init: Init, f: Formatter): (a: WriterAlloc)
    requires Valid(h) && InitIn(h, init)
    ensures Valid(a.heap) && WriterIn(a.heap, a.writer)
    ensures a.writer.formatter == f
    ensures a.heap.texts == h.texts
    ensures init.InitWriter? ==> a.heap == h && a.writer.tree == init.source.tree
    ensures !init.InitWriter? ==>
      a.writer.tree == |h.trees| && a.heap.trees[..|h.trees|] == h.trees && |a.heap.trees| == |h.trees| + 1
    ensures init.InitNone? ==> a.heap.trees[a.writer.tree] == []
    ensures init.InitSingle? ==> a.heap.trees[a.writer.tree] == [ItemChild(init.item)]
    ensures init.InitList? ==>
      |a.heap.trees[a.writer.tree]| == |init.items| &&
      forall i :: 0 <= i < |init.items| ==> a.heap.trees[a.writer.tree][i] == ItemChild(init.items[i])
  {
    match init
    case InitWriter(w) => WriterAlloc(h, Writer(w.tree, f))
    case InitNone => WriterAlloc(h.(trees := h.trees + [[]]), Writer(|h.trees|, f))
    case InitSingle(item) => WriterAlloc(h.(trees := h.trees + [[ItemChild(item)]]), Writer(|h.trees|, f))
    case InitList(items) =>
      var cs := seq(|items|, i requires 0 <= i < |items| => ItemChild(items[i]));
      WriterAlloc(h.(trees := h.trees + [cs]), Writer(|h.trees|, f))
  }

  /** What `CodeWriter.add` is given, by Python type. */
  datatype Addable =
    | AddStr(s: string)            // a str: wrapped in a new CodeText
    | AddWriter(other: Writer)     // a CodeWriter: its children are spliced in
    | AddCodeText(ref: TextRef)    // a CodeText: appended by reference
    | AddList(items: seq<Addable>) // a list: each item added in turn
    | AddOther(kind: string)       // anything else: TypeError

  predicate AddableIn(h: Heap, x: Addable)
    decreases x
  {
    match x
    case AddStr(_) => true
    case AddWriter(o) => WriterIn(h, o)
    case AddCodeText(r) => TextIn(h, r)
    case AddList(items) => forall i :: 0 <= i < |items| ==> AddableIn(h, items[i])
    case AddOther(_) => true
  }

  /** Whether `add(x)` ends by raising `TypeError`: some item, at any depth of
      nesting, is of an unsupported type. */
  predicate Raises(x: Addable)
    decreases x
  {
    match x
    case AddOther(_) => true
    case AddList(items) => exists i :: 0 <= i < |items| && Raises(items[i])
    case _ => false
  }

  /** The store after `add`, and whether `TypeError` was raised. The store is
      returned in both cases: items added before the bad one stay added. */
  datatype Outcome = Outcome(heap: Heap, raised: bool)

  /** The store can have grown only as `add` on `w` grows it: new texts at the
      end, no text changed, and only `w`'s deque extended. */
  predicate Grows(h: Heap, h': Heap, w: Writer) {
    && |h.texts| <= |h'.texts| && h'.texts[..|h.texts|] == h.texts
    && |h'.trees| == |h.trees|
    && (forall t :: 0 <= t < |h.trees| && t != w.tree ==> h'.trees[t] == h.trees[t])
    && w.tree < |h.trees| && h.trees[w.tree] <= h'.trees[w.tree]
  }

  lemma {:induction false} AddableStaysIn(h: Heap, h': Heap, x: Addable)
    requires AddableIn(h, x)
    requires |h.texts| <= |h'.texts| && |h.trees| <= |h'.trees|
    ensures AddableIn(h', x)
    decreases x
  {
    match x
    case AddList(items) =>
      forall i | 0 <= i < |items|
        ensures AddableIn(h', items[i])
      {
        AddableStaysIn(h, h', items[i]);
      }
    case _ =>
  }

  /** `w.add(x)`. */
  function Add(h: Heap, w: Writer, x: Addable): (o: Outcome)
    requires Valid(h) && WriterIn(h, w) && AddableIn(h, x)
    ensures Valid(o.heap) && WriterIn(o.heap, w)
    ensures Grows(h, o.heap, w)
    ensures o.raised <==> Raises(x)
    ensures x.AddStr? ==>
      && o.heap.texts == h.texts + [[x.s]]
      && o.heap.trees[w.tree] == h.trees[w.tree] + [TextChild(|h.texts|)]
    ensures x.AddWriter? ==>
      o.heap.texts == h.texts && o.heap.trees[w.tree] == h.trees[w.tree] + h.trees[x.other.tree]
    ensures x.AddCodeText? ==>
      o.heap.texts == h.texts && o.heap.trees[w.tree] == h.trees[w.tree] + [TextChild(x.ref)]
    ensures x.AddOther? ==> o.heap == h
    decreases x
  {
    match x
    case AddList(items) => AddAll(h, w, items)
    case AddStr(s) =>
      var a := NewText(h, TextStr(s));
      Outcome(a.heap.(trees := a.heap.trees[w.tree := a.heap.trees[w.tree] + [TextChild(a.ref)]]), false)
    case AddWriter(other) =>
      Outcome(h.(trees := h.trees[w.tree := h.trees[w.tree] + h.trees[other.tree]]), false)
    case AddCodeText(r) =>
      Outcome(h.(trees := h.trees[w.tree := h.trees[w.tree] + [TextChild(r)]]), false)
    case AddOther(_) =>
      Outcome(h, true)
  }

  /** The loop over a list's items in `add`, stopping at the first `TypeError`. */
  function AddAll(h: Heap, w: Writer, items: seq<Addable>): (o: Outcome)
    requires Valid(h) && WriterIn(h, w)
    requires forall i :: 0 <= i < |items| ==> AddableIn(h, items[i])
    ensures Valid(o.heap) && WriterIn(o.heap, w)
    ensures Grows(h, o.heap, w)
    ensures o.raised <==> exists i :: 0 <= i < |items| && Raises(items[i])
    decreases items
  {
    if |items| == 0 then Outcome(h, false)
    else
      var first := Add(h, w, items[0]);
      if first.raised then first
      else
        var rest := items[1..];
        assert forall i :: 0 <= i < |rest| ==> AddableIn(first.heap, rest[i]) by {
          forall i | 0 <= i < |rest|
            ensures AddableIn(first.heap, rest[i])
          {
            AddableStaysIn(h, first.heap, rest[i]);
          }
        }
        var o := AddAll(first.heap, w, rest);
        assert forall i :: 1 <= i < |items| ==> items[i] == rest[i - 1];
        o
  }

  /** `w + x`: `add(x)` on `w`, then `w` itself (not a copy) is returned.
      Python falls back to this method for `w += x` as well. */
  function Plus(h: Heap, w: Writer, x: Addable): (r: (Outcome, Writer))
    requires Valid(h) && WriterIn(h, w) && AddableIn(h, x)
    ensures r.1 == w
    ensures r.0 == Add(h, w, x)
    ensures r.0.raised <==> Raises(x)
    ensures NoSelfSplice(w, x) ==> WriterLen(r.0.heap, r.1) == WriterLen(h, w) + Expected(h, x)
  {
    AddCount(h, w, x);
    (Add(h, w, x), w)
  }

  /** `len(w)`: the number of children. */
  function WriterLen(h: Heap, w: Writer): (n: nat)
    requires Valid(h) && WriterIn(h, w)
    ensures n == 0 ==> RenderWriter(h, w) == ""
    ensures var sep := w.formatter.separator; var rs := ChildRenders(h, h.trees[w.tree]);
      n >= 1 && |sep| == 1 && Free(sep[0], rs) ==> n == |Split(sep[0], RenderWriter(h, w))|
  {
    |h.trees[w.tree]|
  }

  /** `str(child)`: a `CodeText` child renders with the default formatter,
      whatever the writer's own formatter is. */
  function RenderChild(h: Heap, c: Child): (s: string)
    requires ChildIn(h, c)
    ensures c.Verbatim? ==> s == c.repr
    ensures c.TextChild? && |h.texts[c.ref]| >= 1 && Free('\n', h.texts[c.ref]) ==>
      Split('\n', s) == h.texts[c.ref]
  {
    match c
    case TextChild(r) => RenderText(h, r, DefaultFormatter)
    case Verbatim(repr) => repr
  }

  function ChildRenders(h: Heap, cs: seq<Child>): (r: seq<string>)
    requires forall i :: 0 <= i < |cs| ==> ChildIn(h, cs[i])
    ensures |r| == |cs|
    ensures forall i :: 0 <= i < |cs| ==> r[i] == RenderChild(h, cs[i])
  {
    seq(|cs|, i requires 0 <= i < |cs| => RenderChild(h, cs[i]))
  }

  /** `str(w)`: the children's renderings joined with the writer's separator,
      read from the store as it is now. */
  function RenderWriter(h: Heap, w: Writer): (s: string)
    requires Valid(h) && WriterIn(h, w)
    ensures |h.trees[w.tree]| == 0 ==> s == ""
    ensures |h.trees[w.tree]| == 1 ==> s == RenderChild(h, h.trees[w.tree][0])
    ensures var sep := w.formatter.separator; var rs := ChildRenders(h, h.trees[w.tree]);
      |rs| >= 1 && |sep| == 1 && Free(sep[0], rs) ==> Split(sep[0], s) == rs
  {
    var rs := ChildRenders(h, h.trees[w.tree]);
    JoinSplits(w.formatter.separator, rs);
    Join(w.formatter.separator, rs)
  }

  /** Children that do not refer to a given text render the same after it changes. */
  lemma RendersUnchanged(h: Heap, h': Heap, cs: seq<Child>, r: TextRef)
    requires forall i :: 0 <= i < |cs| ==> ChildIn(h, cs[i])
    requires |h.texts| <= |h'.texts|
    requires forall q :: 0 <= q < |h.texts| && q != r ==> h'.texts[q] == h.texts[q]
    requires TextChild(r) !in cs
    ensures forall i :: 0 <= i < |cs| ==> ChildIn(h', cs[i])
    ensures ChildRenders(h', cs) == ChildRenders(h, cs)
  {
    assert forall i :: 0 <= i < |cs| ==> cs[i] != TextChild(r);
  }

  /** Renderings of existing children survive any growth of the store by `add`. */
  lemma RendersSurviveGrowth(h: Heap, h': Heap, cs: seq<Child>)
    requires forall i :: 0 <= i < |cs| ==> ChildIn(h, cs[i])
    requires |h.texts| <= |h'.texts| && h'.texts[..|h.texts|] == h.texts
    ensures forall i :: 0 <= i < |cs| ==> ChildIn(h', cs[i])
    ensures ChildRenders(h', cs) == ChildRenders(h, cs)
  {
    forall i | 0 <= i < |cs| && cs[i].TextChild?
      ensures h'.texts[cs[i].ref] == h.texts[cs[i].ref]
    {
      assert h'.texts[..|h.texts|][cs[i].ref] == h'.texts[cs[i].ref];
    }
  }

  /** Adding a string adds one line to the rendering. */
  lemma RenderAfterAddStr(h: Heap, w: Writer, s: string)
    requires Valid(h) && WriterIn(h, w)
    ensures var h' := Add(h, w, AddStr(s)).heap;
      RenderWriter(h', w)
        == if WriterLen(h, w) == 0 then s else RenderWriter(h, w) + w.formatter.separator + s
  {
    var h' := Add(h, w, AddStr(s)).heap;
    var cs := h.trees[w.tree];
    RendersSurviveGrowth(h, h', cs);
    assert ChildRenders(h', h'.trees[w.tree]) == ChildRenders(h', cs) + [s];
    if |cs| > 0 {
      JoinSnoc(w.formatter.separator, ChildRenders(h, cs), s);
    }
  }

  /** Splicing a non-empty writer with the same separator into a non-empty one
      renders as the two renderings joined by that separator. */
  lemma RenderAfterSplice(h: Heap, w: Writer, other: Writer)
    requires Valid(h) && WriterIn(h, w) && WriterIn(h, other)
    requires other.formatter.separator == w.formatter.separator
    requires WriterLen(h, w) >= 1 && WriterLen(h, other) >= 1
    ensures var h' := Add(h, w, AddWriter(other)).heap;
      RenderWriter(h', w) == RenderWriter(h, w) + w.formatter.separator + RenderWriter(h, other)
  {
    var h' := Add(h, w, AddWriter(other)).heap;
    var a, b := h.trees[w.tree], h.trees[other.tree];
    assert h'.trees[w.tree] == a + b;
    assert ChildRenders(h', a + b) == ChildRenders(h, a + b) == ChildRenders(h, a) + ChildRenders(h, b);
    JoinAppend(w.formatter.separator, ChildRenders(h, a), ChildRenders(h, b));
  }

  /** Extending the last item of a joined run extends the joined string. */
  lemma JoinExtendLast(sep: string, xs: seq<string>, y: string, t: string)
    ensures Join(sep, xs + [y + t]) == Join(sep, xs + [y]) + t
  {
    if |xs| > 0 {
      JoinSnoc(sep, xs, y + t);
      JoinSnoc(sep, xs, y);
    }
  }

  /**
   A `CodeText` is held by reference: whatever `add_text` does to it after it
   was added to a writer shows up in the writer's next rendering, at every
   position the object occupies, while every other child renders as before.
   */
  lemma LaterTextEditsShow(h: Heap, w: Writer, r: TextRef, x: TextArg)
    requires Valid(h) && WriterIn(h, w) && TextIn(h, r) && TextArgIn(h, x)
    ensures var h' := AddText(h, r, x);
      var cs := h.trees[w.tree];
      && h'.trees[w.tree] == cs
      && (forall i :: 0 <= i < |cs| && cs[i] == TextChild(r) ==>
            ChildRenders(h', cs)[i] == RenderText(h', r, DefaultFormatter))
      && (forall i :: 0 <= i < |cs| && cs[i] != TextChild(r) ==>
            ChildRenders(h', cs)[i] == ChildRenders(h, cs)[i])
      && RenderWriter(h', w) == Join(w.formatter.separator, ChildRenders(h', cs))
  {
    var h' := AddText(h, r, x);
    var cs := h.trees[w.tree];
    forall i | 0 <= i < |cs| && cs[i] != TextChild(r)
      ensures ChildRenders(h', cs)[i] == ChildRenders(h, cs)[i]
    {
      if cs[i].TextChild? {
        assert h'.texts[cs[i].ref] == h.texts[cs[i].ref];
      }
    }
  }

  /** The case of a text that is the writer's last child, held nowhere else in
      it: a line added to it extends the writer's rendering by a newline and
      that line. */
  lemma LaterLineShowsAtEnd(h: Heap, w: Writer, r: TextRef, s: string)
    requires Valid(h) && WriterIn(h, w) && TextIn(h, r)
    requires |h.trees[w.tree]| >= 1 && h.trees[w.tree][|h.trees[w.tree]| - 1] == TextChild(r)
    requires TextChild(r) !in h.trees[w.tree][..|h.trees[w.tree]| - 1]
    requires TextLen(h, r) >= 1
    ensures RenderWriter(AddText(h, r, TextStr(s)), w) == RenderWriter(h, w) + "\n" + s
  {
    var h' := AddText(h, r, TextStr(s));
    var all := h.trees[w.tree];
    var before := ChildRenders(h, all)[..|all| - 1];
    var y := RenderText(h, r, DefaultFormatter);
    LastChildRenders(h, w, r, TextStr(s));
    RenderAfterAddLine(h, r, s, DefaultFormatter);
    assert y + "\n" + s == y + ("\n" + s);
    JoinExtendLast(w.formatter.separator, before, y, "\n" + s);
  }

  /** The child renderings of a writer whose last child, and only that one, is
      the edited text. */
  lemma LastChildRenders(h: Heap, w: Writer, r: TextRef, x: TextArg)
    requires Valid(h) && WriterIn(h, w) && TextIn(h, r) && TextArgIn(h, x)
    requires |h.trees[w.tree]| >= 1 && h.trees[w.tree][|h.trees[w.tree]| - 1] == TextChild(r)
    requires TextChild(r) !in h.trees[w.tree][..|h.trees[w.tree]| - 1]
    ensures var h' := AddText(h, r, x);
      var all := h.trees[w.tree];
      var before := ChildRenders(h, all)[..|all| - 1];
      && h'.trees[w.tree] == all
      && ChildRenders(h', all) == before + [RenderText(h', r, DefaultFormatter)]
      && ChildRenders(h, all) == before + [RenderText(h, r, DefaultFormatter)]
  {
    var h' := AddText(h, r, x);
    var all := h.trees[w.tree];
    var n := |all|;
    var pre := all[..n - 1];
    RendersUnchanged(h, h', pre, r);
    assert ChildRenders(h, pre) == ChildRenders(h, all)[..n - 1];
    assert ChildRenders(h', all) == ChildRenders(h', pre) + [RenderText(h', r, DefaultFormatter)];
  }

  /** Adding a list is adding its first part, then, unless that raised, its
      second part: a list is added item by item, in order. */
  lemma {:induction false} AddAllAppend(h: Heap, w: Writer, xs: seq<Addable>, ys: seq<Addable>)
    requires Valid(h) && WriterIn(h, w)
    requires forall i :: 0 <= i < |xs| ==> AddableIn(h, xs[i])
    requires forall i :: 0 <= i < |ys| ==> AddableIn(h, ys[i])
    ensures forall i :: 0 <= i < |xs + ys| ==> AddableIn(h, (xs + ys)[i])
    ensures forall i :: 0 <= i < |ys| ==> AddableIn(AddAll(h, w, xs).heap, ys[i])
    ensures AddAll(h, w, xs + ys)
         == var o := AddAll(h, w, xs); if o.raised then o else AddAll(o.heap, w, ys)
    decreases xs
  {
    var o := AddAll(h, w, xs);
    forall i | 0 <= i < |ys|
      ensures AddableIn(o.heap, ys[i])
    {
      AddableStaysIn(h, o.heap, ys[i]);
    }
    if |xs| == 0 {
      assert xs + ys == ys;
    } else {
      assert (xs + ys)[0] == xs[0];
      assert (xs + ys)[1..] == xs[1..] + ys;
      var first := Add(h, w, xs[0]);
      if !first.raised {
        forall i | 0 <= i < |xs[1..]|
          ensures AddableIn(first.heap, xs[1..][i])
        {
          AddableStaysIn(h, first.heap, xs[1..][i]);
        }
        forall i | 0 <= i < |ys|
          ensures AddableIn(first.heap, ys[i])
        {
          AddableStaysIn(h, first.heap, ys[i]);
        }
        AddAllAppend(first.heap, w, xs[1..], ys);
      }
    }
  }

  /** A list with an unsupported item raises `TypeError`, and leaves the store
      exactly as adding the items before that item would: those stay added,
      the ones after it are never added. */
  lemma ListStopsAtTypeError(h: Heap, w: Writer, pre: seq<Addable>, kind: string, post: seq<Addable>)
    requires Valid(h) && WriterIn(h, w)
    requires forall i :: 0 <= i < |pre| ==> AddableIn(h, pre[i]) && !Raises(pre[i])
    requires forall i :: 0 <= i < |post| ==> AddableIn(h, post[i])
    ensures forall i :: 0 <= i < |pre + [AddOther(kind)] + post| ==> AddableIn(h, (pre + [AddOther(kind)] + post)[i])
    ensures Add(h, w, AddList(pre + [AddOther(kind)] + post))
         == Outcome(Add(h, w, AddList(pre)).heap, true)
  {
    var rest := [AddOther(kind)] + post;
    assert pre + [AddOther(kind)] + post == pre + rest;
    AddAllAppend(h, w, pre, rest);
    var o := AddAll(h, w, pre);
    assert !o.raised;
    assert rest[0] == AddOther(kind);
  }

  /** Adding a `CodeText` to any writer adds its lines joined by the default
      formatter's newline, whatever separator the writer itself uses; the
      writer's separator only goes between the children. */
  lemma NestedTextUsesDefaultSeparator(h: Heap, w: Writer, r: TextRef)
    requires Valid(h) && WriterIn(h, w) && TextIn(h, r)
    ensures var h' := Add(h, w, AddCodeText(r)).heap;
      var t := Join("\n", h.texts[r]);
      RenderWriter(h', w)
        == if WriterLen(h, w) == 0 then t else RenderWriter(h, w) + w.formatter.separator + t
  {
    var h' := Add(h, w, AddCodeText(r)).heap;
    var cs := h.trees[w.tree];
    assert h'.texts == h.texts;
    assert ChildRenders(h', h'.trees[w.tree]) == ChildRenders(h, cs) + [Join("\n", h.texts[r])];
    if |cs| > 0 {
      JoinSnoc(w.formatter.separator, ChildRenders(h, cs), Join("\n", h.texts[r]));
    }
  }

  /** A corollary of `NewWriter` sharing the source's deque: whatever is
      added through either writer, the source or the new one, is seen through
      both, in length and (with equal formatters) in rendering. */
  lemma SharedWritersAgree(h: Heap, w1: Writer, f: Formatter, x: Addable)
    requires Valid(h) && WriterIn(h, w1) && AddableIn(h, x)
    ensures var a := NewWriter(h, InitWriter(w1), f);
      var viaNew := Add(a.heap, a.writer, x).heap;
      var viaSource := Add(a.heap, w1, x).heap;
      && viaNew == viaSource
      && WriterLen(viaNew, w1) == WriterLen(viaNew, a.writer)
      && (f == w1.formatter ==> RenderWriter(viaNew, w1) == RenderWriter(viaNew, a.writer))
  {
    var a := NewWriter(h, InitWriter(w1), f);
    assert a.writer.tree == w1.tree;
    AddSameDeque(a.heap, w1, a.writer, x);
  }

  /** `add` only uses which deque a writer holds, not its formatter. */
  lemma {:induction false} AddSameDeque(h: Heap, w1: Writer, w2: Writer, x: Addable)
    requires Valid(h) && WriterIn(h, w1) && AddableIn(h, x) && w1.tree == w2.tree
    ensures Add(h, w1, x) == Add(h, w2, x)
    decreases x
  {
    match x
    case AddList(items) => AddAllSameDeque(h, w1, w2, items);
    case _ =>
  }

  lemma {:induction false} AddAllSameDeque(h: Heap, w1: Writer, w2: Writer, items: seq<Addable>)
    requires Valid(h) && WriterIn(h, w1) && w1.tree == w2.tree
    requires forall i :: 0 <= i < |items| ==> AddableIn(h, items[i])
    ensures AddAll(h, w1, items) == AddAll(h, w2, items)
    decreases items
  {
    if |items| > 0 {
      AddSameDeque(h, w1, w2, items[0]);
      var first := Add(h, w1, items[0]);
      if !first.raised {
        forall i | 0 <= i < |items[1..]|
          ensures AddableIn(first.heap, items[1..][i])
        {
          AddableStaysIn(h, first.heap, items[1..][i]);
        }
        AddAllSameDeque(first.heap, w1, w2, items[1..]);
      }
    }
  }

  /** Whether `x` splices no writer that shares `w`'s deque. */
  predicate NoSelfSplice(w: Writer, x: Addable)
    decreases x
  {
    match x
    case AddWriter(o) => o.tree != w.tree
    case AddList(items) => forall i :: 0 <= i < |items| ==> NoSelfSplice(w, items[i])
    case _ => true
  }

  /** How many children `add(x)` appends, read off `x` alone: one per string
      or `CodeText`, a writer's length per writer, items of a list up to and
      including the first that raises. */
  function Expected(h: Heap, x: Addable): nat
    requires AddableIn(h, x)
    decreases x
  {
    match x
    case AddStr(_) => 1
    case AddWriter(o) => |h.trees[o.tree]|
    case AddCodeText(_) => 1
    case AddOther(_) => 0
    case AddList(items) => ExpectedAll(h, items)
  }

  function ExpectedAll(h: Heap, items: seq<Addable>): nat
    requires forall i :: 0 <= i < |items| ==> AddableIn(h, items[i])
    decreases items
  {
    if |items| == 0 then 0
    else Expected(h, items[0]) + (if Raises(items[0]) then 0 else ExpectedAll(h, items[1..]))
  }

  lemma {:induction false} ExpectedStable(h: Heap, h': Heap, w: Writer, x: Addable)
    requires AddableIn(h, x) && Grows(h, h', w) && NoSelfSplice(w, x)
    ensures AddableIn(h', x) && Expected(h', x) == Expected(h, x)
    decreases x
  {
    AddableStaysIn(h, h', x);
    match x
    case AddList(items) => ExpectedAllStable(h, h', w, items);
    case _ =>
  }

  lemma {:induction false} ExpectedAllStable(h: Heap, h': Heap, w: Writer, items: seq<Addable>)
    requires forall i :: 0 <= i < |items| ==> AddableIn(h, items[i]) && NoSelfSplice(w, items[i])
    requires Grows(h, h', w)
    ensures forall i :: 0 <= i < |items| ==> AddableIn(h', items[i])
    ensures ExpectedAll(h', items) == ExpectedAll(h, items)
    decreases items
  {
    forall i | 0 <= i < |items|
      ensures AddableIn(h', items[i])
    {
      AddableStaysIn(h, h', items[i]);
    }
    if |items| > 0 {
      ExpectedStable(h, h', w, items[0]);
      ExpectedAllStable(h, h', w, items[1..]);
    }
  }

  /** Unless a writer sharing `w`'s deque is spliced into it, `add(x)` grows
      `len(w)` by exactly `Expected(x)`, whether or not it raises. */
  lemma {:induction false} AddCount(h: Heap, w: Writer, x: Addable)
    requires Valid(h) && WriterIn(h, w) && AddableIn(h, x)
    ensures NoSelfSplice(w, x) ==> WriterLen(Add(h, w, x).heap, w) == WriterLen(h, w) + Expected(h, x)
    decreases x
  {
    if NoSelfSplice(w, x) {
      match x
      case AddList(items) => AddAllCount(h, w, items);
      case _ =>
    }
  }

  lemma {:induction false} AddAllCount(h: Heap, w: Writer, items: seq<Addable>)
    requires Valid(h) && WriterIn(h, w)
    requires forall i :: 0 <= i < |items| ==> AddableIn(h, items[i]) && NoSelfSplice(w, items[i])
    ensures WriterLen(AddAll(h, w, items).heap, w) == WriterLen(h, w) + ExpectedAll(h, items)
    decreases items
  {
    if |items| > 0 {
      var first := Add(h, w, items[0]);
      AddCount(h, w, items[0]);
      if !first.raised {
        var rest := items[1..];
        ExpectedAllStable(h, first.heap, w, rest);
        AddAllCount(first.heap, w, rest);
      }
    }
  }

  /** The concatenation tests: `cwr + cwr2` with `cwr2` empty, and `cwri += cwri2`,
      both leave a writer of two children. */
  lemma ConcatenationTests(h: Heap)
    requires Valid(h)
    ensures var a := NewWriter(h, InitNone, DefaultFormatter);
      var h1 := Add(a.heap, a.writer, AddStr("Line 1")).heap;
      var b := NewWriter(h1, InitNone, DefaultFormatter);
      var h2 := Add(b.heap, a.writer, AddStr("Line 2")).heap;
      var p := Plus(h2, a.writer, AddWriter(b.writer));
      p.1 == a.writer && !p.0.raised && WriterLen(p.0.heap, p.1) == 2
    ensures var a := NewWriter(h, InitNone, DefaultFormatter);
      var h1 := Add(a.heap, a.writer, AddStr("Line 1")).heap;
      var b := NewWriter(h1, InitNone, DefaultFormatter);
      var h2 := Add(b.heap, b.writer, AddStr("Line 2")).heap;
      var p := Plus(h2, a.writer, AddWriter(b.writer));
      p.1 == a.writer && WriterLen(p.0.heap, p.1) == 2
  {
  }

  // ---------------------------------------------------------------------------
  // The auto-generated banner
  // ---------------------------------------------------------------------------

  /** The package's version and source address, read from its metadata. */
  datatype Meta = Meta(version: string, source: string)

  /** The author argument: none, a single string, or a list of strings. */
  datatype Authors = NoAuthor | OneAuthor(name: string) | AuthorList(names: seq<string>)

  /** A single author is treated as a one-element list. */
  function AuthorNames(a: Authors): (names: seq<string>)
    requires !a.NoAuthor?
    ensures a.OneAuthor? ==> |names| == 1 && Join(", ", names) == a.name
    ensures a.AuthorList? ==> names == a.names
  {
    match a
    case OneAuthor(n) => [n]
    case AuthorList(ns) => ns
  }

  /** The lines of the banner comment, in the order they are added. */
  function BannerLines(meta: Meta, license: Option<string>, author: Authors): (lines: seq<string>)
    ensures |lines| == 4 + (if author.NoAuthor? then 0 else 1) + (if license.Some? then 1 else 0)
    ensures lines[0] == "/*" && lines[|lines| - 1] == "*/"
    ensures lines[1] == "This code was automatically generated using ecdypy " + meta.version
    ensures lines[2] == "ecdypy source code is available at: " + meta.source
    ensures !author.NoAuthor? ==> lines[3] == "Author(s): " + Join(", ", AuthorNames(author))
    ensures license.Some? ==> lines[|lines| - 2] == "This code is licensed under: " + license.value
  {
    var head := ["/*",
                 "This code was automatically generated using ecdypy " + meta.version,
                 "ecdypy source code is available at: " + meta.source];
    var byLine := if author.NoAuthor? then [] else ["Author(s): " + Join(", ", AuthorNames(author))];
    var licenseLine := if license.Some? then ["This code is licensed under: " + license.value] else [];
    head + byLine + licenseLine + ["*/"]
  }

  /** `w.add_auto_gen_comment(license, author)`: one new `CodeText` holding the
      banner, added to `w` as a single child. */
  function AddAutoGenComment(h: Heap, w: Writer, meta: Meta, license: Option<string>, author: Authors): (h': Heap)
    requires Valid(h) && WriterIn(h, w)
    ensures Valid(h') && WriterIn(h', w)
    ensures |h'.texts| == |h.texts| + 1 && h'.texts[..|h.texts|] == h.texts
    ensures |h'.trees| == |h.trees|
    ensures h'.texts[|h.texts|] == BannerLines(meta, license, author)
    ensures h'.trees[w.tree] == h.trees[w.tree] + [TextChild(|h.texts|)]
    ensures forall t :: 0 <= t < |h.trees| && t != w.tree ==> h'.trees[t] == h.trees[t]
  {
    var text := NewText(h, TextDeque(BannerLines(meta, license, author)));
    Add(text.heap, w, AddCodeText(text.ref)).heap
  }

  /** A lone author string gives the same banner as a list of just that author. */
  lemma LoneAuthorIsList(meta: Meta, license: Option<string>, name: string)
    ensures BannerLines(meta, license, OneAuthor(name)) == BannerLines(meta, license, AuthorList([name]))
  {
  }
}

=== FILE: decimal.dfy ===
/**
 Python's `str(v)` for an integer `v`: the canonical decimal rendering, with a
 leading `-` for negative values and no leading zeros. `Value` reads a digit
 string back, so the rendering has an independent inverse.
 */
module Decimal {

  predicate IsDigit(c: char) {
    '0' <= c <= '9'
  }

  /** Every character of `s` is an ASCII digit (`[0-9]*`). */
  predicate AllDigits(s: string) {
    forall i :: 0 <= i < |s| ==> IsDigit(s[i])
  }

  function DigitChar(d: nat): (c: char)
    requires d < 10
    ensures IsDigit(c)
    ensures c as int - '0' as int == d
  {
    (48 + d) as char
  }

  /** `str(n)` for a natural number. */
  function NatToDecimal(n: nat): (s: string)
    ensures |s| >= 1
    ensures AllDigits(s)
    ensures s[0] == '0' <==> n == 0
    ensures n < 10 <==> |s| == 1
    decreases n
  {
    if n < 10 then [DigitChar(n)]
    else NatToDecimal(n / 10) + [DigitChar(n % 10)]
  }

  /** `str(v)` for any integer. */
  function IntToDecimal(v: int): (s: string)
    ensures v < 0 ==> |s| >= 2 && s[0] == '-' && s[1..] == NatToDecimal(-v)
    ensures v >= 0 ==> s == NatToDecimal(v)
  {
    if v < 0 then "-" + NatToDecimal(-v) else NatToDecimal(v)
  }

  /** The number a digit string denotes (leading zeros allowed). */
  function Value(s: string): nat
    requires AllDigits(s)
    decreases |s|
  {
    if |s| == 0 then 0
    else Value(s[..|s| - 1]) * 10 + (s[|s| - 1] as int - '0' as int)
  }

  /** Reading back a rendering gives the number that was rendered. */
  lemma {:induction false} ValueOfDecimal(n: nat)
    ensures Value(NatToDecimal(n)) == n
    decreases n
  {
    if n >= 10 {
      ValueOfDecimal(n / 10);
      var s := NatToDecimal(n);
      assert s[..|s| - 1] == NatToDecimal(n / 10);
    }
  }

  /** The rendering of a two-digit number. */
  lemma TwoDigits(n: nat)
    requires 10 <= n < 100
    ensures NatToDecimal(n) == [DigitChar(n / 10), DigitChar(n % 10)]
  {
  }

  /** The rendering of a three-digit number. */
  lemma ThreeDigits(n: nat)
    requires 100 <= n < 1000
    ensures NatToDecimal(n) == [DigitChar(n / 100), DigitChar(n / 10 % 10), DigitChar(n % 10)]
  {
    TwoDigits(n / 10);
    assert n / 10 / 10 == n / 100;
  }

  /** Renderings have at least four characters exactly from 1000 on. */
  lemma {:induction false} LongDecimal(n: nat)
    ensures n >= 1000 <==> |NatToDecimal(n)| >= 4
    decreases n
  {
    if n < 10 {
    } else if n < 100 {
      TwoDigits(n);
    } else if n < 1000 {
      ThreeDigits(n);
    } else {
      LongDecimal(n / 10);
    }
  }
}

=== FILE: lines.dfy ===
/**
 This module gives Python's `sep.join(items)` and `s.split(c)` on strings,
 and proves that splitting a join on a separator that occurs in no item gives
 the items back.
 */
module Lines {

  /** `sep.join(xs)`: the items in order, with `sep` between neighbours. */
  function Join(sep: string, xs: seq<string>): (r: string)
    ensures |xs| == 0 ==> r == ""
    ensures |xs| == 1 ==> r == xs[0]
    ensures |xs| >= 1 ==> |r| >= |xs[0]| && r[..|xs[0]|] == xs[0]
    decreases |xs|
  {
    if |xs| == 0 then ""
    else if |xs| == 1 then xs[0]
    else xs[0] + sep + Join(sep, xs[1..])
  }

  /** `s.split(c)` with an explicit one-character separator: never empty. */
  function Split(c: char, s: string): (r: seq<string>)
    ensures |r| >= 1
    ensures c !in s ==> r == [s]
    decreases |s|
  {
    if |s| == 0 then [""]
    else if s[0] == c then [""] + Split(c, s[1..])
    else
      var rest := Split(c, s[1..]);
      assert forall x :: x in s[1..] ==> x in s;
      assert [s[0]] + s[1..] == s;
      [[s[0]] + rest[0]] + rest[1..]
  }

  /** No item contains the separator character. */
  predicate Free(c: char, xs: seq<string>) {
    forall i :: 0 <= i < |xs| ==> c !in xs[i]
  }

  lemma {:induction false} SplitAfter(c: char, a: string, b: string)
    requires c !in a
    ensures Split(c, a + [c] + b) == [a] + Split(c, b)
    decreases |a|
  {
    if |a| == 0 {
      assert a + [c] + b == [c] + b;
      assert ([c] + b)[1..] == b;
    } else {
      var s := a + [c] + b;
      assert s[0] == a[0];
      assert s[1..] == a[1..] + [c] + b;
      SplitAfter(c, a[1..], b);
      assert [a[0]] + a[1..] == a;
    }
  }

  /** Splitting a join recovers the items when none contains the separator. */
  lemma {:induction false} SplitJoin(c: char, xs: seq<string>)
    requires |xs| >= 1
    requires Free(c, xs)
    ensures Split(c, Join([c], xs)) == xs
    decreases |xs|
  {
    if |xs| == 1 {
    } else {
      SplitJoin(c, xs[1..]);
      SplitAfter(c, xs[0], Join([c], xs[1..]));
      assert [xs[0]] + xs[1..] == xs;
    }
  }

  /** The round trip stated for a separator string: when it is one
      character that no item holds, splitting on it undoes the join. */
  lemma JoinSplits(sep: string, xs: seq<string>)
    ensures |sep| == 1 && |xs| >= 1 && Free(sep[0], xs) ==> Split(sep[0], Join(sep, xs)) == xs
  {
    if |sep| == 1 && |xs| >= 1 && Free(sep[0], xs) {
      assert [sep[0]] == sep;
      SplitJoin(sep[0], xs);
    }
  }

  /** Joining two non-empty runs puts one separator between them. */
  lemma {:induction false} JoinAppend(sep: string, xs: seq<string>, ys: seq<string>)
    requires |xs| >= 1 && |ys| >= 1
    ensures Join(sep, xs + ys) == Join(sep, xs) + sep + Join(sep, ys)
    decreases |xs|
  {
    if |xs| == 1 {
      assert (xs + ys)[1..] == ys;
    } else {
      JoinAppend(sep, xs[1..], ys);
      assert (xs + ys)[1..] == xs[1..] + ys;
    }
  }

  /** Appending one item to a non-empty run adds a separator and the item. */
  lemma JoinSnoc(sep: string, xs: seq<string>, y: string)
    requires |xs| >= 1
    ensures Join(sep, xs + [y]) == Join(sep, xs) + sep + y
  {
    JoinAppend(sep, xs, [y]);
  }
}

=== FILE: macros.dfy ===
/**
 Attribute text: `Macro(t)` renders `#[t]` and `Derive(a1, ..., an)` renders
 `#[derive(a1,...,an)]`. Arguments are held as the strings `str()` made of
 them. Each rendering has a parser that takes it back apart.
 */
module Macros {
  import opened Wrappers
  import opened Lines

  const Open: string := "#["
  const Close: string := "]"

  /** `Macro(text)`. */
  datatype Macro = Macro(text: string) {

    /** `get_text()`. */
    function GetText(): (r: string)
      ensures |r| == |text| + 3
      ensures r[..2] == Open && r[|r| - 1..] == Close
      ensures r[2..|r| - 1] == text
    {
      Open + text + Close
    }

    /** `str(macro)`, the same text as `get_text()`, from which the macro
        text can be read back. */
    function ToString(): (r: string)
      ensures r == GetText()
      ensures ParseMacro(r) == Some(text)
    {
      MacroRoundTrip(GetText(), text);
      GetText()
    }
  }

  /** `Derive(*args)`: the arguments in the order given. */
  datatype Derive = Derive(args: seq<string>) {

    /** `get_text()`: the arguments joined with bare commas. */
    function GetText(): (r: string)
      ensures r == Macro("derive(" + Join(",", args) + ")").GetText()
      ensures |args| == 0 ==> r == "#[derive()]"
    {
      "#[derive(" + Join(",", args) + ")]"
    }

    /** `str(derive)`, the same text as `get_text()`, from which arguments
        that are non-empty and comma-free can be read back in order. */
    function ToString(): (r: string)
      ensures r == GetText()
      ensures (forall i :: 0 <= i < |args| ==> args[i] != "" && ',' !in args[i]) ==> ParseDerive(r) == Some(args)
    {
      DeriveRoundTrip(args);
      GetText()
    }
  }

  /** The text inside `#[` and `]`, when `s` has that shape. */
  function ParseMacro(s: string): (r: Option<string>)
    ensures r.Some? <==> |s| >= 3 && s[..2] == Open && s[|s| - 1..] == Close
  {
    if |s| >= 3 && s[..2] == Open && s[|s| - 1..] == Close then Some(s[2..|s| - 1]) else None
  }

  /** Rendering and parsing a macro are inverse: a string parses to `t`
      exactly when it is the rendering of `Macro(t)`. */
  lemma MacroRoundTrip(s: string, t: string)
    ensures ParseMacro(s) == Some(t) <==> s == Macro(t).GetText()
  {
    if ParseMacro(s) == Some(t) {
      assert s == s[..2] + s[2..|s| - 1] + s[|s| - 1..];
    }
  }

  /** The derive arguments of a `#[derive(...)]` string, split on commas. */
  function ParseDerive(s: string): (r: Option<seq<string>>)
    ensures r.Some? ==> |s| >= 11 && s[..9] == "#[derive(" && s[|s| - 2..] == ")]"
  {
    if |s| >= 11 && s[..9] == "#[derive(" && s[|s| - 2..] == ")]" then
      var inner := s[9..|s| - 2];
      Some(if inner == "" then [] else Split(',', inner))
    else None
  }

  /** The arguments come back from the rendering, in order, when none is
      empty and none contains a comma. */
  lemma DeriveRoundTrip(args: seq<string>)
    ensures (forall i :: 0 <= i < |args| ==> args[i] != "" && ',' !in args[i]) ==>
      ParseDerive(Derive(args).GetText()) == Some(args)
  {
    var s := Derive(args).GetText();
    var inner := Join(",", args);
    assert s[..9] == "#[derive(";
    assert s[9..|s| - 2] == inner;
    if |args| >= 1 && forall i :: 0 <= i < |args| ==> args[i] != "" && ',' !in args[i] {
      SplitJoin(',', args);
      assert |inner| >= |args[0]| > 0;
    }
  }

  /** Both kinds of attribute text begin with `#[` and end with `]`. */
  lemma Bracketed(m: Macro, d: Derive)
    ensures ParseMacro(m.ToString()).Some?
    ensures ParseMacro(d.ToString()).Some?
  {
  }
}

=== FILE: rtypes.dfy ===
/**
 The `u8` primitive type: its three anchored regular expressions over the
 decimal text of a value, `is_ok` and the clamping `value_from`, plus the
 `i8` in-range pattern as a predicate.

 A regular expression is modelled as a predicate on the whole string (its
 body between `^` and `$`). `Search` adds the one liberty Python's `$` takes
 without the MULTILINE flag: it also matches just before a final newline.
 */
module RTypes {
  import opened Wrappers
  import opened Decimal

  /** The patterns of the primitive integer types. */
  datatype Pattern =
    | U8Ok     // ^([0-9]|[1-9][0-9]|1[0-9]{2}|(2[0-4][0-9]|25[0-5]))$
    | U8Lower  // ^(-[0-9]+)$
    | U8Upper  // ^(25[6-9]|2[6-9][0-9]|[3-9][0-9]{2}|[0-9]{4,})$
    | I8Ok     // ^-?(1[0-1][0-9]|12[0-7]|[0-9]{0,2})$

  /** The `i8` magnitude group `(1[0-1][0-9]|12[0-7]|[0-9]{0,2})`. */
  predicate I8Magnitude(m: string) {
    || (|m| == 3 && m[0] == '1' && '0' <= m[1] <= '1' && IsDigit(m[2]))
    || (|m| == 3 && m[0] == '1' && m[1] == '2' && '0' <= m[2] <= '7')
    || (|m| <= 2 && AllDigits(m))
  }

  /** The pattern's body matches all of `s`. */
  predicate Body(p: Pattern, s: string) {
    match p
    case U8Ok =>
      || (|s| == 1 && IsDigit(s[0]))
      || (|s| == 2 && '1' <= s[0] <= '9' && IsDigit(s[1]))
      || (|s| == 3 && s[0] == '1' && IsDigit(s[1]) && IsDigit(s[2]))
      || (|s| == 3 && s[0] == '2' && '0' <= s[1] <= '4' && IsDigit(s[2]))
      || (|s| == 3 && s[0] == '2' && s[1] == '5' && '0' <= s[2] <= '5')
    case U8Lower =>
      |s| >= 2 && s[0] == '-' && AllDigits(s[1..])
    case U8Upper =>
      || (|s| == 3 && s[0] == '2' && s[1] == '5' && '6' <= s[2] <= '9')
      || (|s| == 3 && s[0] == '2' && '6' <= s[1] <= '9' && IsDigit(s[2]))
      || (|s| == 3 && '3' <= s[0] <= '9' && IsDigit(s[1]) && IsDigit(s[2]))
      || (|s| >= 4 && AllDigits(s))
    case I8Ok =>
      I8Magnitude(s) || (|s| >= 1 && s[0] == '-' && I8Magnitude(s[1..]))
  }

  /** `re.search(p, s)` succeeds for a pattern anchored with `^` and `$`. */
  predicate Search(p: Pattern, s: string) {
    Body(p, s) || (|s| >= 1 && s[|s| - 1] == '\n' && Body(p, s[..|s| - 1]))
  }

  /** An argument of `value_from` / `is_ok`: an integer, or any other
      object, which the patterns only see through its `str()`. */
  datatype Raw = Int(v: int) | Other(text: string)

  function Str(x: Raw): string {
    match x
    case Int(v) => IntToDecimal(v)
    case Other(t) => t
  }

  const MinValue: int := 0
  const MaxValue: int := 255

  function Clamp(v: int, lo: int, hi: int): (r: int)
    requires lo <= hi
    ensures lo <= r <= hi
    ensures lo <= v <= hi ==> r == v
    ensures v < lo ==> r == lo
    ensures v > hi ==> r == hi
  {
    if v < lo then lo else if v > hi then hi else v
  }

  /** `_U8_().is_ok(x)`: whether the match object it returns is truthy. */
  predicate IsOk(x: Raw)
    ensures x.Int? ==> (IsOk(x) <==> MinValue <= x.v <= MaxValue)
  {
    match x
    case Int(v) =>
      U8OkExactly(v);
      Search(U8Ok, IntToDecimal(v))
    case Other(t) =>
      Search(U8Ok, t)
  }

  /**
   `_U8_().value_from(x)`: the argument itself when it is in range, else the
   bound on the side its text shows, else `None` (the failed assignment is
   reported on standard output and swallowed).
   */
  function ValueFrom(x: Raw): (r: Option<Raw>)
    ensures IsOk(x) ==> r == Some(x)
    ensures r.Some? && r.value != x ==> r.value in {Int(MinValue), Int(MaxValue)}
    ensures r.None? <==> !Search(U8Ok, Str(x)) && !Search(U8Lower, Str(x)) && !Search(U8Upper, Str(x))
    ensures Search(U8Lower, Str(x)) ==> r == Some(Int(MinValue))
    ensures Search(U8Upper, Str(x)) ==> r == Some(Int(MaxValue))
    ensures r == Some(x) <==> IsOk(x)
  {
    U8PatternsDisjoint(Str(x));
    U8Classification(if x.Int? then x.v else 0);
    if IsOk(x) then Some(x)
    else if Search(U8Lower, Str(x)) then Some(Int(MinValue))
    else if Search(U8Upper, Str(x)) then Some(Int(MaxValue))
    else None
  }

  /** For every integer argument, `value_from` is clamping to `[0, 255]`: the
      failure branch is unreachable. */
  lemma ValueFromIsClamp(v: int)
    ensures ValueFrom(Int(v)) == Some(Int(Clamp(v, MinValue, MaxValue)))
    ensures IsOk(Int(v)) <==> MinValue <= v <= MaxValue
  {
    U8Classification(v);
  }

  /** A decimal rendering ends in a digit, never in a newline, so `$`'s
      liberty plays no part on it. */
  lemma SearchDecimal(p: Pattern, v: int)
    ensures Search(p, IntToDecimal(v)) <==> Body(p, IntToDecimal(v))
  {
    var s := IntToDecimal(v);
    assert IsDigit(s[|s| - 1]);
  }

  /** On the decimal text of an integer, the `u8` ok-pattern means `0 <= v <= 255`. */
  lemma U8OkExactly(v: int)
    ensures Search(U8Ok, IntToDecimal(v)) <==> 0 <= v <= 255
  {
    SearchDecimal(U8Ok, v);
    if v >= 0 {
      DecimalShapes(v);
    }
  }

  /** On the decimal text of an integer, the lower pattern means `v < 0`. */
  lemma U8LowerExactly(v: int)
    ensures Search(U8Lower, IntToDecimal(v)) <==> v < 0
  {
    SearchDecimal(U8Lower, v);
  }

  /** On the decimal text of an integer, the upper pattern means `v > 255`. */
  lemma U8UpperExactly(v: int)
    ensures Search(U8Upper, IntToDecimal(v)) <==> v > 255
  {
    SearchDecimal(U8Upper, v);
    if v >= 0 {
      DecimalShapes(v);
    }
  }

  /** The three `u8` patterns sort every integer into exactly one class. */
  lemma U8Classification(v: int)
    ensures Search(U8Ok, IntToDecimal(v)) <==> 0 <= v <= 255
    ensures Search(U8Lower, IntToDecimal(v)) <==> v < 0
    ensures Search(U8Upper, IntToDecimal(v)) <==> v > 255
  {
    U8OkExactly(v);
    U8LowerExactly(v);
    U8UpperExactly(v);
  }

  /** The shape of the decimal text of a natural number, class by length. */
  lemma DecimalShapes(n: nat)
    ensures var s := NatToDecimal(n);
      && (n < 10 ==> s == [DigitChar(n)])
      && (10 <= n < 100 ==> s == [DigitChar(n / 10), DigitChar(n % 10)])
      && (100 <= n < 1000 ==> s == [DigitChar(n / 100), DigitChar(n / 10 % 10), DigitChar(n % 10)])
      && (n >= 1000 <==> |s| >= 4)
  {
    if 10 <= n < 100 {
      TwoDigits(n);
    }
    if 100 <= n < 1000 {
      ThreeDigits(n);
    }
    LongDecimal(n);
  }

  /** On every string, not only decimal ones, the three `u8` patterns are
      pairwise exclusive, so the order of the branches of `value_from` does
      not matter. */
  lemma U8PatternsDisjoint(s: string)
    ensures !(Search(U8Ok, s) && Search(U8Lower, s))
    ensures !(Search(U8Ok, s) && Search(U8Upper, s))
    ensures !(Search(U8Lower, s) && Search(U8Upper, s))
  {
    if |s| >= 1 && s[|s| - 1] == '\n' {
      assert !IsDigit(s[|s| - 1]);
    }
  }

  /** `value_from` on text that is not a canonical decimal: a string with
      leading zeros or no digits gives `None`; four or more digits clamp
      high whatever their value; `-0` clamps low; a final newline is allowed. */
  lemma ValueFromOnText()
    ensures ValueFrom(Other("abc")) == None
    ensures ValueFrom(Other("007")) == None
    ensures ValueFrom(Other("")) == None
    ensures ValueFrom(Other("0000")) == Some(Int(MaxValue))
    ensures ValueFrom(Other("-0")) == Some(Int(MinValue))
    ensures ValueFrom(Other("5\n")) == Some(Other("5\n"))
    ensures ValueFrom(Other("300\n")) == Some(Int(MaxValue))
  {
    assert !Search(U8Lower, "");
    assert AllDigits("0000");
    assert AllDigits("0");
    assert "5\n"[..1] == "5";
    assert "300\n"[..3] == "300";
  }

  /** On the decimal text of an integer, the `i8` ok-pattern means
      `-127 <= v <= 127`. */
  lemma I8OkExactly(v: int)
    ensures Search(I8Ok, IntToDecimal(v)) <==> -127 <= v <= 127
  {
    SearchDecimal(I8Ok, v);
    var s := IntToDecimal(v);
    if v < 0 {
      I8MagnitudeExactly(-v);
      assert s[1..] == NatToDecimal(-v);
      assert !I8Magnitude(s) by { assert !IsDigit(s[0]); }
    } else {
      I8MagnitudeExactly(v);
      assert s[0] != '-';
    }
  }

  /** The magnitude group matches the decimal text of `n` iff `n <= 127`. */
  lemma I8MagnitudeExactly(n: nat)
    ensures I8Magnitude(NatToDecimal(n)) <==> n <= 127
  {
    DecimalShapes(n);
  }

  /** As written, the `i8` ok-pattern's `[0-9]{0,2}` also accepts the empty
      string, a lone minus sign and leading zeros. */
  lemma I8OkLoose()
    ensures Search(I8Ok, "")
    ensures Search(I8Ok, "-")
    ensures Search(I8Ok, "-07")
  {
    assert "-07"[1..] == "07";
    assert AllDigits("07");
  }
}

=== FILE: wrappers.dfy ===
/** Optional values: Python's `None` next to a present value. */
module Wrappers {

  datatype Option<+T> = None | Some(value: T)
}
